=== FILE: README.md ===
# Brand service of the laptech REST API, modelled in Dafny

This project models the brand service of a product-catalog REST API
(`BrandServiceImpl`) on top of its data-access layer (`BrandDAO`).
Insert, update, delete and findById each guard their work with a read
and throw one of three exceptions when a guard or a reported outcome
fails; count and findAll pass one call through, and findWithFilter
makes no call at all:

- `insert` refuses a duplicate brand, inserts it, and reads the new row back by its generated id (two calls after the check; the read-back may be null);
- `update` loads the row, overwrites its four editable columns with the patch's, and writes it back;
- `delete` loads the row and asks the data-access layer to delete it on behalf of an actor;
- `findById` loads the row or throws not-found;
- `count` and `findAll` delegate unchanged, and `findWithFilter` is a stub that returns null.

The data-access layer is abstracted; the model represents it as follows:

- The **table** (`Brands.Table`, a `map<int, Brand>`) is what its `findById` returns, by id.
- Its other answers are **parameters** of each operation:
  - the verdict of `isExists`;
  - the generated key (possibly null) returned by `insert`, and the table as the store presents it after that call (`Dao.InsertOutcome`); the read-back is a lookup in that table, so it may find nothing;
  - the row count reported by `update`;
  - the table left behind by `delete`;
  - the answers of `count` and `findAll`.
- Each operation (module `BrandService`) is a pure function. It returns an `Outcome`: the
  `Result` (a value or an `Error`), the new table, and the
  sequence of data-access calls it issued, reads included (`Dao.Call`). Statements such as
  "no insert is issued" are made about that call sequence.
- Module `Session` serves a sequence of requests one after the other.
  It proves properties of whole sessions.
- Module `BrandServiceLaws` relates single calls to each other and to the table invariants
  (rows keyed by their id, unique names).
- Module `Scenarios` walks through a concrete example.
- Module `BrandApi` derives the delete actor from the optional request body, as the controller does.

Behaviour of the code worth knowing:

- Update copies name, country, logo and establishDate from the patch unconditionally,
  so a null field in the patch clears the stored one. `Scenarios.AcmeScenario` shows a
  country-only patch turning the name into `None`.
- Update has no name check: `BrandServiceLaws.UpdateMayDuplicateName` exhibits a table
  with unique names that a successful update turns into one where two brands share a name.
  Insert keeps names unique only if the `isExists` verdict is truthful about names and the
  store writes the input's name under a fresh key (`BrandServiceLaws.InsertKeepsNamesUnique`).
  Which columns `isExists` compares is left open.
- A successful insert returns whatever findById reads back under the generated key, null
  included. It never returns the input (`BrandServiceLaws.InsertResultIgnoresInput`).

## Model

| member | source | states |
|---|---|---|
| BrandService.Insert | src/main/java/com/laptech/restapi/service/impl/BrandServiceImpl.java:25-37 | AlreadyExists exactly when the duplicate check fires, and then no write is issued and the table is unchanged. InternalError exactly when insert returns no key. Otherwise success, whose value is what findById reads back under the new key (possibly null), read by the last call issued. Exactly one insert, of the input, once the check passes, and it follows that check. The table afterwards is the one the store presents after its insert call. |
| BrandService.Update | src/main/java/com/laptech/restapi/service/impl/BrandServiceImpl.java:39-56 | NotFound exactly when the id has no row, and then no write is issued. InternalError exactly when zero rows are reported. Success exactly when the row exists and a non-zero count is reported. Failures leave the table unchanged. Exactly one write, carrying the stored row merged with the patch. Never a duplicate check. On success the row takes the patch's four editable columns and keeps its id and audit columns, and other rows are untouched. |
| BrandService.Delete | src/main/java/com/laptech/restapi/service/impl/BrandServiceImpl.java:58-65 | A missing id gives NotFound with that id, an unchanged table and no write. An existing id gives success with exactly one write, a delete carrying the given id and the possibly-null actor. |
| BrandService.FindById | src/main/java/com/laptech/restapi/service/impl/BrandServiceImpl.java:82-89 | Succeeds exactly when the id has a row and then returns that row unchanged. Otherwise it fails with NotFound for that id. It never writes or changes the table. |
| BrandService.Count | src/main/java/com/laptech/restapi/service/impl/BrandServiceImpl.java:67-70 | Returns the data-access count as it is, with a single count call and no change to the table. |
| BrandService.FindAll | src/main/java/com/laptech/restapi/service/impl/BrandServiceImpl.java:72-75 | Forwards sortBy, sortDir, page and size unchanged as the paging options of a single call. Returns the rows that call yields, and the table is unchanged. |
| BrandService.FindWithFilter | src/main/java/com/laptech/restapi/service/impl/BrandServiceImpl.java:77-80 | For any filter parameters, returns no collection (null) and touches nothing. |
| Brands.Merge | src/main/java/com/laptech/restapi/service/impl/BrandServiceImpl.java:47-50 | The merged row has exactly the patch's name, country, logo and establishDate, including absent ones. Its id and audit columns are the stored row's. |
| Brands.MergeUnique | src/main/java/com/laptech/restapi/service/impl/BrandServiceImpl.java:47-50 | Any brand with the patch's editable columns and the stored row's unmanaged columns is the merge, so the merge changes nothing else. |
| Brands.MergeLastWins | src/main/java/com/laptech/restapi/service/impl/BrandServiceImpl.java:47-50 | A second patch erases every trace of the first. |
| Brands.MergeSelf | src/main/java/com/laptech/restapi/service/impl/BrandServiceImpl.java:47-50 | Patching a row with itself leaves it as it was. |
| Brands.Lookup | src/main/java/com/laptech/restapi/service/impl/BrandServiceImpl.java:84-85 | A load is null exactly when the id has no row, and otherwise yields the stored row. |
| BrandServiceLaws.InsertResultIgnoresInput | src/main/java/com/laptech/restapi/service/impl/BrandServiceImpl.java:36 | Two inserts that differ only in the input brand return the same result: the value comes from the read-back, not from the input. |
| BrandServiceLaws.InsertReadsBackStoredRow | src/main/java/com/laptech/restapi/service/impl/BrandServiceImpl.java:32-36 | When the store wrote a row under the key it returns, a successful insert returns that row, whatever the input was. |
| BrandServiceLaws.InsertThenFindById | src/main/java/com/laptech/restapi/service/impl/BrandServiceImpl.java:32-36 | Right after a successful insert, findById on the generated key returns the record insert returned, and fails with NotFound exactly when insert returned null. |
| BrandServiceLaws.UpdateThenFindById | src/main/java/com/laptech/restapi/service/impl/BrandServiceImpl.java:43-54 | Right after a successful update, findById returns the previously stored row merged with the patch. |
| BrandServiceLaws.UpdateIdempotent | src/main/java/com/laptech/restapi/service/impl/BrandServiceImpl.java:43-54 | Repeating a successful update with the same patch succeeds exactly when rows are reported, and then it changes nothing. |
| BrandServiceLaws.UpdateKeepsKeyed | src/main/java/com/laptech/restapi/service/impl/BrandServiceImpl.java:47-50 | If every row is stored under its own id before an update, that still holds after it, because update never changes an id. |
| BrandServiceLaws.InsertKeepsKeyed | src/main/java/com/laptech/restapi/service/impl/BrandServiceImpl.java:32-36 | If the store writes, under the key it returns, a row carrying that key, insert keeps every row stored under its own id. |
| BrandServiceLaws.InsertKeepsNamesUnique | src/main/java/com/laptech/restapi/service/impl/BrandServiceImpl.java:29-36 | With a truthful duplicate check on names, and a store that writes the input's name under a fresh key, insert preserves name uniqueness. |
| BrandServiceLaws.UpdateMayDuplicateName | src/main/java/com/laptech/restapi/service/impl/BrandServiceImpl.java:40-55 | Update has no uniqueness check. A table with unique names exists where a successful update makes two brands share a name. |
| Session.Serve | src/main/java/com/laptech/restapi/service/impl/BrandServiceImpl.java:21-90 | A failed request leaves the table unchanged unless it is an insert that passed its duplicate check. Read requests never write. An insert whose duplicate check fires issues no row insert. Every write follows its guarding read. |
| Session.Run | src/main/java/com/laptech/restapi/service/impl/BrandServiceImpl.java:21-90 | A session yields one error slot per request, and the first slot is the first request's own outcome. |
| Session.RunNil | src/main/java/com/laptech/restapi/service/impl/BrandServiceImpl.java:21-90 | An empty session leaves the table as it was, issues no call and reports no outcome. |
| Session.RunOne | src/main/java/com/laptech/restapi/service/impl/BrandServiceImpl.java:21-90 | A one-request session ends on the table that request's operation leaves, issues exactly its calls, and reports its outcome. |
| Session.RunAppendTable | src/main/java/com/laptech/restapi/service/impl/BrandServiceImpl.java:21-90 | Serving two sessions back to back ends on the table the second session reaches when started from the table the first one left. |
| Session.RunAppendErrors | src/main/java/com/laptech/restapi/service/impl/BrandServiceImpl.java:21-90 | The outcomes of back-to-back sessions are the first session's, in order, followed by the second session's outcomes on the table the first one left. |
| Session.RunAppendCalls | src/main/java/com/laptech/restapi/service/impl/BrandServiceImpl.java:21-90 | The data-access calls of back-to-back sessions are the first session's, in order, followed by those the second session issues from the table the first one left. |
| Session.RunGuarded | src/main/java/com/laptech/restapi/service/impl/BrandServiceImpl.java:29-64 | Across a whole session, each insert directly follows the duplicate check of the same brand. Each update directly follows a load, and each delete directly follows the load of the same id. |
| Session.ReadOnlyRunKeepsTable | src/main/java/com/laptech/restapi/service/impl/BrandServiceImpl.java:67-89 | A session of findById, count, findAll and findWithFilter requests issues no write and leaves the table unchanged. |
| Session.FailedRunKeepsTable | src/main/java/com/laptech/restapi/service/impl/BrandServiceImpl.java:29-64 | A session in which every request fails, and every insert fails at its duplicate check, leaves the table unchanged. |
| Session.DuplicateRunInsertsNothing | src/main/java/com/laptech/restapi/service/impl/BrandServiceImpl.java:29-31 | If the duplicate check fires on every insert of a session, no row insert is ever issued. |
| Scenarios.AcmeScenario | src/main/java/com/laptech/restapi/service/impl/BrandServiceImpl.java:26-64 | The walk-through runs as follows. Creating Acme returns the stored row, not the input. A second Acme is refused and the table is unchanged. A country-only patch sets the country, clears the name and keeps the audit columns. The delete by admin1 issues one delete carrying that actor. |
| BrandApi.ActorOf | src/main/java/com/laptech/restapi/controller/BrandController.java:87 | The actor is present exactly when a body is present and its updateBy entry is non-null. When present, it is that entry. |
| BrandApi.DeleteStampsBodyActor | src/main/java/com/laptech/restapi/controller/BrandController.java:85-88 | Deleting an existing brand through the endpoint succeeds and issues exactly one delete, stamped with the actor ActorOf takes from the body. |

## Left out

- The data-access layer's SQL is not modelled. Its verdicts, generated keys, row counts, delete effect and `count`/`findAll` answers are parameters. Which columns `isExists` compares, and whether delete is soft or hard, are left open, so nothing is claimed about what `findById` sees after a delete.
- BrandService.Insert: the table after the insert call is a parameter, because what the store writes (defaults, audit columns, the key it stamps) is left open. So the contract does not say that the new row is the input, or even that a row was written.
- BrandService.Update: the data-access update is assumed to store exactly the row it is passed under the loaded id, and to change nothing when it reports zero rows. Whether its SQL stamps a modified date or an updater itself is left open. UpdateThenFindById, UpdateIdempotent, UpdateKeepsKeyed and UpdateMayDuplicateName rest on this assumption.
- Session.FailedRunKeepsTable: it leaves out sessions with an insert that fails for want of a generated key. The insert call has then already reached the store, whose state afterwards is not known.
- BrandService.Delete: the table after a delete is a parameter, so the contract says nothing about which rows remain, for the reason above.
- BrandService.Count and BrandService.FindAll: what the store counts and how it sorts and pages (`PagingOptionDTO` defaults) are left open. Only the forwarding is stated.
- Exception message texts are not modelled. `NotFound` keeps the id its message reports.
- The audit columns of `Brand` are represented by `Audit`, a representative set of creation, modification, deletion and updater columns; the service never touches them.
- Java `Long` ids are modelled as unbounded integers, because the service does no arithmetic on them.
- The `Long` id arguments of update, delete and findById are never null here, because the controllers pass primitive `long` values.
- Concurrency is not modelled. The window between the duplicate check and the insert lies outside a sequential model.
- HTTP routing, role guards, the response envelope and the category and address controllers and services are not modelled. They are framework glue or are not part of this model.

=== FILE: brand.dfy ===
/** The Brand record and the table of brands keyed by id. */
module Brands {
  import opened Results

  /** Dates are kept abstract: the service only copies them. */
  type Date = int

  /** Audit and bookkeeping columns of a brand. The service never sets
      them itself, so update must carry them over from the stored row. */
  datatype Audit = Audit(
    createdDate: Option<Date>,
    modifiedDate: Option<Date>,
    deleted: bool,
    updateBy: Option<string>)

  /** A brand as the data-access layer loads and stores it. Every
      reference field may be null, hence `Option`. */
  datatype Brand = Brand(
    id: Option<int>,
    name: Option<string>,
    country: Option<string>,
    logo: Option<string>,
    establishDate: Option<Date>,
    audit: Audit)

  /** The four columns a client may edit through update. */
  datatype Editable = Editable(
    name: Option<string>,
    country: Option<string>,
    logo: Option<string>,
    establishDate: Option<Date>)

  /** The columns update must never change. */
  datatype Unmanaged = Unmanaged(id: Option<int>, audit: Audit)

  function EditableOf(b: Brand): Editable {
    Editable(b.name, b.country, b.logo, b.establishDate)
  }

  function UnmanagedOf(b: Brand): Unmanaged {
    Unmanaged(b.id, b.audit)
  }

  /** The rows the data-access layer returns from findById, by id. */
  type Table = map<int, Brand>

  /** Looking up a brand the way findById does: absent ids give null. */
  function Lookup(t: Table, id: int): (r: Option<Brand>)
    ensures r.Some? <==> id in t
    ensures r.Some? ==> r.value == t[id]
  {
    if id in t then Some(t[id]) else None
  }

  /** Every stored row carries its own key as id. */
  ghost predicate Keyed(t: Table) {
    forall k :: k in t ==> t[k].id == Some(k)
  }

  /** True when some stored row already has this name. */
  ghost predicate NameTaken(t: Table, name: Option<string>) {
    exists k :: k in t && t[k].name == name
  }

  /** No two stored rows share a name. */
  ghost predicate UniqueNames(t: Table) {
    forall j, k :: j in t && k in t && j != k ==> t[j].name != t[k].name
  }

  /** The update merge: the loaded row with its four editable columns
      overwritten by the patch's, whether or not the patch sets them. */
  function Merge(stored: Brand, patch: Brand): (r: Brand)
    ensures EditableOf(r) == EditableOf(patch)
    ensures UnmanagedOf(r) == UnmanagedOf(stored)
  {
    stored.(name := patch.name, country := patch.country,
            logo := patch.logo, establishDate := patch.establishDate)
  }

  /** Merge is the only brand with the patch's editable columns and the
      stored row's unmanaged ones. */
  lemma MergeUnique(stored: Brand, patch: Brand, b: Brand)
    requires EditableOf(b) == EditableOf(patch)
    requires UnmanagedOf(b) == UnmanagedOf(stored)
    ensures b == Merge(stored, patch)
  { }

  /** Applying a later patch discards an earlier one entirely. */
  lemma MergeLastWins(stored: Brand, p: Brand, q: Brand)
    ensures Merge(Merge(stored, p), q) == Merge(stored, q)
  { }

  /** Patching a row with itself changes nothing. */
  lemma MergeSelf(b: Brand)
    ensures Merge(b, b) == b
  { }
}

=== FILE: brand_api.dfy ===
/** The one piece of logic in the brand endpoints: where the actor of a
    delete comes from. */
module BrandApi {
  import opened Results
  import opened Brands
  import opened Dao
  import opened BrandService

  /** The actor named by an optional request body: the body's "updateBy"
      entry, or null when there is no body, no such entry, or a null one. */
  function ActorOf(body: Option<map<string, Option<string>>>): (actor: Option<string>)
    ensures actor.Some? <==>
      body.Some? && "updateBy" in body.value && body.value["updateBy"].Some?
    ensures actor.Some? ==> Some(actor.value) == body.value["updateBy"]
  {
    if body.Some? && "updateBy" in body.value then body.value["updateBy"] else None
  }

  /** Deleting an existing brand through the endpoint issues exactly one
      delete, stamped with the body's "updateBy" entry, or with null when
      the body does not name one. */
  lemma DeleteStampsBodyActor(t: Table, id: int, body: Option<map<string, Option<string>>>, after: Table)
    requires id in t
    ensures var r := Delete(t, id, ActorOf(body), after);
      && r.result == Ok(()) && WriteCount(r.calls) == 1
      && DeleteRow(id, ActorOf(body)) in r.calls
  { }
}

=== FILE: brand_service.dfy ===
/** The brand service: each operation guards one data-access call with a
    check and maps the outcomes to the service's error kinds. Every
    operation is a pure function of the table the data-access layer
    presents and of what that layer reports, and returns the new table
    together with the calls it issued. */
module BrandService {
  import opened Results
  import opened Brands
  import opened Dao

  /** What one service call produces. */
  datatype Outcome<+T> = Outcome(result: Result<T>, table: Table, calls: seq<Call>)

  /** Create a brand. `duplicate` is the verdict of the duplicate check on
      the input; `outcome` is what the data-access insert reports. The
      result is what findById reads back under the generated key, which
      may be null. */
  function Insert(t: Table, brand: Brand, duplicate: bool, outcome: InsertOutcome): (r: Outcome<Option<Brand>>)
    ensures r.result == Err(AlreadyExists) <==> duplicate
    ensures r.result == Err(InternalError) <==> !duplicate && outcome.key.None?
    ensures r.result.Ok? <==> !duplicate && outcome.key.Some?
    ensures duplicate ==> r.table == t && WriteCount(r.calls) == 0
    ensures !duplicate ==> r.table == outcome.after
    ensures !duplicate ==> WriteCount(r.calls) == 1 && InsertRow(brand) in r.calls
    ensures r.result.Ok? ==>
      && r.result.value == Lookup(outcome.after, outcome.key.value)
      && r.calls[|r.calls| - 1] == FindRow(outcome.key.value)
    ensures Guarded(r.calls)
  {
    if duplicate then
      Outcome(Err(AlreadyExists), t, [IsExists(brand)])
    else
      match outcome.key
      case None =>
        Outcome(Err(InternalError), outcome.after, [IsExists(brand), InsertRow(brand)])
      case Some(id) =>
        Outcome(Ok(Lookup(outcome.after, id)), outcome.after,
                [IsExists(brand), InsertRow(brand), FindRow(id)])
  }

  /** Edit the brand stored under `id`: load it, overwrite its four
      editable columns with the patch's, write it back. `rowsAffected` is
      the count the data-access update reports. There is no duplicate
      check here. */
  function Update(t: Table, patch: Brand, id: int, rowsAffected: int): (r: Outcome<()>)
    ensures r.result == Err(NotFound(id)) <==> id !in t
    ensures r.result == Err(InternalError) <==> id in t && rowsAffected == 0
    ensures r.result.Ok? <==> id in t && rowsAffected != 0
    ensures r.result.Err? ==> r.table == t
    ensures id !in t ==> WriteCount(r.calls) == 0
    ensures id in t ==> WriteCount(r.calls) == 1 && UpdateRow(Merge(t[id], patch)) in r.calls
    ensures forall c :: c in r.calls ==> !c.IsExists?
    ensures r.result.Ok? ==>
      && r.table.Keys == t.Keys
      && EditableOf(r.table[id]) == EditableOf(patch)
      && UnmanagedOf(r.table[id]) == UnmanagedOf(t[id])
      && (forall k :: k in t && k != id ==> r.table[k] == t[k])
    ensures Guarded(r.calls)
  {
    match Lookup(t, id)
    case None =>
      Outcome(Err(NotFound(id)), t, [FindRow(id)])
    case Some(stored) =>
      var merged := Merge(stored, patch);
      var calls := [FindRow(id), UpdateRow(merged)];
      if rowsAffected == 0 then Outcome(Err(InternalError), t, calls)
      else Outcome(Ok(()), t[id := merged], calls)
  }

  /** Delete the brand stored under `id` on behalf of `actor`. What the
      data-access delete does to the rows is not known, so the table it
      leaves behind is the parameter `after`. */
  function Delete(t: Table, id: int, actor: Option<string>, after: Table): (r: Outcome<()>)
    ensures r.result.Err? <==> id !in t
    ensures r.result.Err? ==> r.result.error == NotFound(id) && r.table == t
    ensures r.result.Err? ==> WriteCount(r.calls) == 0
    ensures r.result.Ok? ==>
      && WriteCount(r.calls) == 1
      && (forall c :: c in r.calls && c.IsWrite() ==> c == DeleteRow(id, actor))
      && r.table == after
    ensures Guarded(r.calls)
  {
    match Lookup(t, id)
    case None => Outcome(Err(NotFound(id)), t, [FindRow(id)])
    case Some(_) => Outcome(Ok(()), after, [FindRow(id), DeleteRow(id, actor)])
  }

  /** Load the brand stored under `id`. */
  function FindById(t: Table, id: int): (r: Outcome<Brand>)
    ensures r.result.Ok? <==> id in t
    ensures r.result.Ok? ==> r.result.value == t[id]
    ensures r.result.Err? ==> r.result.error == NotFound(id)
    ensures r.table == t && WriteCount(r.calls) == 0
  {
    match Lookup(t, id)
    case None => Outcome(Err(NotFound(id)), t, [FindRow(id)])
    case Some(b) => Outcome(Ok(b), t, [FindRow(id)])
  }

  /** The number of brands, as the data-access count reports it. */
  function Count(t: Table, stored: int): (r: Outcome<int>)
    ensures r.result == Ok(stored)
    ensures r.table == t && r.calls == [CountRows]
  {
    Outcome(Ok(stored), t, [CountRows])
  }

  /** One page of brands: the four request options are forwarded as they
      are, and the rows the data-access layer returns are passed back. */
  function FindAll(t: Table, sortBy: Option<string>, sortDir: Option<string>,
                   page: Option<int>, size: Option<int>, rows: seq<Brand>): (r: Outcome<seq<Brand>>)
    ensures r.result == Ok(rows)
    ensures r.table == t && r.calls == [FindPage(Paging(sortBy, sortDir, page, size))]
  {
    Outcome(Ok(rows), t, [FindPage(Paging(sortBy, sortDir, page, size))])
  }

  /** Filtering is a stub: whatever the parameters, no collection (null)
      is returned and the data-access layer is not consulted. */
  function FindWithFilter<V>(t: Table, params: map<string, V>): (r: Outcome<Option<seq<Brand>>>)
    ensures r.result == Ok(None)
    ensures r.table == t && r.calls == []
  {
    Outcome(Ok(None), t, [])
  }
}

=== FILE: brand_service_laws.dfy ===
/** Properties that relate several brand-service calls, or a call to an
    invariant of the table. */
module BrandServiceLaws {
  import opened Results
  import opened Brands
  import opened Dao
  import opened BrandService

  /** The data-access insert wrote `row` under the key it reports, and
      nothing at all when it reports no key. */
  ghost predicate StoresRow(t: Table, outcome: InsertOutcome, row: Brand) {
    match outcome.key
    case Some(k) => outcome.after == t[k := row]
    case None => outcome.after == t
  }

  /** What insert returns does not depend on the input brand: it is only
      what the store reads back. */
  lemma InsertResultIgnoresInput(t: Table, a: Brand, b: Brand, duplicate: bool, outcome: InsertOutcome)
    ensures Insert(t, a, duplicate, outcome).result == Insert(t, b, duplicate, outcome).result
  { }

  /** When the store wrote `row` under the new key, insert returns that
      row, whatever the input was. */
  lemma InsertReadsBackStoredRow(t: Table, brand: Brand, outcome: InsertOutcome, row: Brand)
    requires StoresRow(t, outcome, row)
    requires outcome.key.Some?
    ensures Insert(t, brand, false, outcome).result == Ok(Some(row))
  { }

  /** findById on the generated key right after a successful insert finds
      what insert returned, and fails with NotFound when insert returned
      null. */
  lemma InsertThenFindById(t: Table, brand: Brand, duplicate: bool, outcome: InsertOutcome)
    requires Insert(t, brand, duplicate, outcome).result.Ok?
    ensures var r := Insert(t, brand, duplicate, outcome);
      FindById(r.table, outcome.key.value).result ==
        (match r.result.value
         case Some(b) => Ok(b)
         case None => Err(NotFound(outcome.key.value)))
  { }

  /** After a successful update, loading the brand gives the stored row
      merged with the patch. */
  lemma UpdateThenFindById(t: Table, patch: Brand, id: int, rowsAffected: int)
    requires Update(t, patch, id, rowsAffected).result.Ok?
    ensures id in t
    ensures FindById(Update(t, patch, id, rowsAffected).table, id).result == Ok(Merge(t[id], patch))
  { }

  /** Repeating a successful update with the same patch leaves the table
      as the first update left it. */
  lemma UpdateIdempotent(t: Table, patch: Brand, id: int, n: int, m: int)
    requires Update(t, patch, id, n).result.Ok?
    ensures var t1 := Update(t, patch, id, n).table;
      Update(t1, patch, id, m).result.Ok? <==> m != 0
    ensures var t1 := Update(t, patch, id, n).table;
      Update(t1, patch, id, m).result.Ok? ==> Update(t1, patch, id, m).table == t1
  { }

  /** Update keeps every row keyed by its own id. */
  lemma UpdateKeepsKeyed(t: Table, patch: Brand, id: int, rowsAffected: int)
    requires Keyed(t)
    ensures Keyed(Update(t, patch, id, rowsAffected).table)
  { }

  /** Insert keeps every row keyed by its own id when the store writes a
      row carrying the key it reports. */
  lemma InsertKeepsKeyed(t: Table, brand: Brand, duplicate: bool, outcome: InsertOutcome, row: Brand)
    requires Keyed(t)
    requires StoresRow(t, outcome, row)
    requires outcome.key.Some? ==> row.id == outcome.key
    ensures Keyed(Insert(t, brand, duplicate, outcome).table)
  { }

  /** When the duplicate check answers truthfully about names and the
      store writes the input's name under a fresh key, insert keeps names
      unique. */
  lemma InsertKeepsNamesUnique(t: Table, brand: Brand, outcome: InsertOutcome, row: Brand)
    requires UniqueNames(t)
    requires StoresRow(t, outcome, row)
    requires outcome.key.Some? ==> outcome.key.value !in t && row.name == brand.name
    ensures UniqueNames(Insert(t, brand, NameTaken(t, brand.name), outcome).table)
  { }

  /** Update does not check names: from a table with unique names it can
      reach one where two brands share a name. */
  lemma UpdateMayDuplicateName()
    ensures exists t: Table, patch: Brand, id: int ::
      && UniqueNames(t)
      && Update(t, patch, id, 1).result.Ok?
      && !UniqueNames(Update(t, patch, id, 1).table)
  {
    var audit := Audit(None, None, false, None);
    var acme := Brand(Some(1), Some("Acme"), None, None, None, audit);
    var zeta := Brand(Some(2), Some("Zeta"), None, None, None, audit);
    var t: Table := map[1 := acme, 2 := zeta];
    var r := Update(t, acme, 2, 1);
    assert r.table[1].name == r.table[2].name;
  }
}

=== FILE: dao.dfy ===
/** The data-access layer as seen from the service: the calls it offers
    and the outcomes it may report. Its SQL is not part of this model. */
module Dao {
  import opened Results
  import opened Brands

  /** The paging options findAll forwards, each one possibly null. */
  datatype Paging = Paging(
    sortBy: Option<string>,
    sortDir: Option<string>,
    page: Option<int>,
    size: Option<int>)

  /** One call the service makes on the data-access layer. */
  datatype Call =
    | IsExists(probe: Brand)
    | InsertRow(row: Brand)
    | FindRow(id: int)
    | UpdateRow(row: Brand)
    | DeleteRow(id: int, actor: Option<string>)
    | CountRows
    | FindPage(paging: Paging)
  {
    /** Calls that change stored data. */
    predicate IsWrite() {
      InsertRow? || UpdateRow? || DeleteRow?
    }
  }

  /** What the data-access insert reports: the generated key, or null
      when there is none, together with the table as the store presents it
      after the insert call. Whether and what the store wrote is not
      visible, so that table is not constrained. */
  datatype InsertOutcome = InsertOutcome(key: Option<int>, after: Table)

  /** The number of write calls in a log. */
  function WriteCount(calls: seq<Call>): (n: nat)
    ensures n <= |calls|
    ensures n == 0 <==> forall i :: 0 <= i < |calls| ==> !calls[i].IsWrite()
  {
    if |calls| == 0 then 0
    else (if calls[0].IsWrite() then 1 else 0) + WriteCount(calls[1..])
  }

  /** Every write is issued right after the read that guards it: an insert
      right after the duplicate check of the same brand, an update right
      after a load (`GuardedAt` does not relate the written row's id to
      the loaded key), a delete right after loading the row it removes. */
  ghost predicate Guarded(calls: seq<Call>) {
    forall i :: 0 <= i < |calls| ==> GuardedAt(calls, i)
  }

  ghost predicate GuardedAt(calls: seq<Call>, i: int)
    requires 0 <= i < |calls|
  {
    match calls[i]
    case InsertRow(row) => 0 < i && calls[i - 1] == IsExists(row)
    case UpdateRow(_) => 0 < i && calls[i - 1].FindRow?
    case DeleteRow(id, _) => 0 < i && calls[i - 1] == FindRow(id)
    case _ => true
  }

  /** Guarded logs stay guarded when one is appended to another. */
  lemma GuardedAppend(a: seq<Call>, b: seq<Call>)
    requires Guarded(a) && Guarded(b)
    ensures Guarded(a + b)
  {
    forall i | 0 <= i < |a + b|
      ensures GuardedAt(a + b, i)
    {
      if i < |a| {
        assert GuardedAt(a, i);
      } else {
        assert GuardedAt(b, i - |a|);
        assert (a + b)[i] == b[i - |a|];
        if i - |a| > 0 {
          assert (a + b)[i - 1] == b[i - |a| - 1];
        }
      }
    }
  }
}

=== FILE: results.dfy ===
/** Failure-carrying values shared by the whole model: the nullable
    references of the service become `Option`, and its three exception
    kinds become the `Error` of a `Result`. */
module Results {

  /** A value that may be absent; stands for a Java reference that may be null. */
  datatype Option<+T> = None | Some(value: T)

  /** The exceptions the brand service throws, one constructor per kind.
      `NotFound` keeps the id that its message reports. */
  datatype Error =
    | AlreadyExists      // ResourceAlreadyExistsException
    | NotFound(id: int)  // ResourceNotFoundException
    | InternalError      // InternalServerErrorException

  /** Either the value a call returns or the exception it throws. */
  datatype Result<+T> = Ok(value: T) | Err(error: Error)
}

=== FILE: scenarios.dfy ===
/** A concrete walk through the brand service: create, reject a
    duplicate, edit, delete. */
module Scenarios {
  import opened Results
  import opened Brands
  import opened Dao
  import opened BrandService

  const NoAudit := Audit(None, None, false, None)

  /** Create "Acme" from the US, be refused a second "Acme", then patch the
      country only: because update copies all four editable columns, the
      patch's missing name replaces "Acme". Finally delete it as "admin1". */
  lemma AcmeScenario(afterDelete: Table)
    ensures var acme := Brand(None, Some("Acme"), Some("US"), None, None, NoAudit);
      var row := acme.(id := Some(1), audit := NoAudit.(createdDate := Some(20221118)));
      var t0: Table := map[];
      var created := Insert(t0, acme, false, InsertOutcome(Some(1), map[1 := row]));
      var again := Insert(created.table, acme.(country := Some("UK")), true, InsertOutcome(None, created.table));
      var patch := Brand(None, None, Some("CA"), None, None, NoAudit);
      var edited := Update(again.table, patch, 1, 1);
      var deleted := Delete(edited.table, 1, Some("admin1"), afterDelete);
      && created.result == Ok(Some(row))
      && created.result != Ok(Some(acme))
      && again.result == Err(AlreadyExists)
      && again.table == created.table
      && edited.result == Ok(())
      && edited.table[1].country == Some("CA")
      && edited.table[1].name == None
      && edited.table[1].audit == row.audit
      && deleted.result == Ok(())
      && deleted.calls == [FindRow(1), DeleteRow(1, Some("admin1"))]
  {
  }
}

=== FILE: session.dfy ===
/** A session: a sequence of brand-service requests served one after the
    other against the same table, each carrying what the data-access layer
    reports for it. */
module Session {
  import opened Results
  import opened Brands
  import opened Dao
  import BrandService

  /** One service request together with the data-access outcomes it meets. */
  datatype Request =
    | InsertReq(brand: Brand, duplicate: bool, outcome: InsertOutcome)
    | UpdateReq(patch: Brand, id: int, rowsAffected: int)
    | DeleteReq(id: int, actor: Option<string>, after: Table)
    | FindByIdReq(id: int)
    | CountReq(stored: int)
    | FindAllReq(sortBy: Option<string>, sortDir: Option<string>,
                 page: Option<int>, size: Option<int>, rows: seq<Brand>)
    | FilterReq(params: map<string, string>)
  {
    /** Requests that may change stored data. */
    predicate Mutates() {
      InsertReq? || UpdateReq? || DeleteReq?
    }
  }

  /** The effect of one request: the new table, the calls issued and the
      error thrown, if any. */
  datatype Step = Step(table: Table, calls: seq<Call>, error: Option<Error>)

  function ErrorOf<T>(r: Result<T>): Option<Error> {
    match r
    case Ok(_) => None
    case Err(e) => Some(e)
  }

  function StepOf<T>(o: BrandService.Outcome<T>): Step {
    Step(o.table, o.calls, ErrorOf(o.result))
  }

  /** Serve one request with the matching service operation. */
  function Serve(t: Table, req: Request): (s: Step)
    ensures s.error.Some? && (req.InsertReq? ==> req.duplicate) ==> s.table == t
    ensures !req.Mutates() ==> s.table == t && WriteCount(s.calls) == 0
    ensures req.InsertReq? && req.duplicate ==> forall c :: c in s.calls ==> !c.InsertRow?
    ensures Guarded(s.calls)
  {
    match req
    case InsertReq(b, dup, out) => StepOf(BrandService.Insert(t, b, dup, out))
    case UpdateReq(p, id, n) => StepOf(BrandService.Update(t, p, id, n))
    case DeleteReq(id, actor, after) => StepOf(BrandService.Delete(t, id, actor, after))
    case FindByIdReq(id) => StepOf(BrandService.FindById(t, id))
    case CountReq(n) => StepOf(BrandService.Count(t, n))
    case FindAllReq(sb, sd, pg, sz, rows) => StepOf(BrandService.FindAll(t, sb, sd, pg, sz, rows))
    case FilterReq(params) => StepOf(BrandService.FindWithFilter(t, params))
  }

  /** The whole session: final table, every call in order, and one error
      slot per request. */
  datatype Trace = Trace(table: Table, calls: seq<Call>, errors: seq<Option<Error>>)

  function Run(t: Table, reqs: seq<Request>): (r: Trace)
    ensures |r.errors| == |reqs|
    ensures |reqs| > 0 ==> r.errors[0] == Serve(t, reqs[0]).error
    decreases |reqs|
  {
    if |reqs| == 0 then Trace(t, [], [])
    else
      var s := Serve(t, reqs[0]);
      var rest := Run(s.table, reqs[1..]);
      Trace(rest.table, s.calls + rest.calls, [s.error] + rest.errors)
  }

  /** An empty session leaves the table as it was and issues nothing. */
  lemma RunNil(t: Table)
    ensures Run(t, []) == Trace(t, [], [])
  { }

  /** A one-request session is that request served on the given table. */
  lemma RunOne(t: Table, req: Request)
    ensures var s := Serve(t, req);
      Run(t, [req]) == Trace(s.table, s.calls, [s.error])
  { }

  /** Serving two sessions back to back ends where the second one ends
      when started from the table the first one left. */
  lemma {:induction false} RunAppendTable(t: Table, a: seq<Request>, b: seq<Request>)
    ensures Run(t, a + b).table == Run(Run(t, a).table, b).table
    decreases |a|
  {
    if |a| > 0 {
      assert (a + b)[1..] == a[1..] + b;
      RunAppendTable(Serve(t, a[0]).table, a[1..], b);
    } else {
      assert a + b == b;
    }
  }

  /** The error slots of back-to-back sessions are the first session's
      followed by those of the second, served on the table the first left. */
  lemma {:induction false} RunAppendErrors(t: Table, a: seq<Request>, b: seq<Request>)
    ensures Run(t, a + b).errors == Run(t, a).errors + Run(Run(t, a).table, b).errors
    decreases |a|
  {
    if |a| > 0 {
      var s := Serve(t, a[0]);
      assert (a + b)[0] == a[0];
      assert (a + b)[1..] == a[1..] + b;
      var whole := Run(s.table, a[1..] + b);
      var front := Run(s.table, a[1..]);
      assert Run(t, a + b).errors == [s.error] + whole.errors;
      assert Run(t, a).errors == [s.error] + front.errors;
      assert Run(t, a).table == front.table;
      RunAppendErrors(s.table, a[1..], b);
      assert whole.errors == front.errors + Run(front.table, b).errors;
    } else {
      assert a + b == b;
    }
  }

  /** The calls of back-to-back sessions are the first session's followed
      by those of the second, served on the table the first left. */
  lemma {:induction false} RunAppendCalls(t: Table, a: seq<Request>, b: seq<Request>)
    ensures Run(t, a + b).calls == Run(t, a).calls + Run(Run(t, a).table, b).calls
    decreases |a|
  {
    if |a| > 0 {
      assert (a + b)[1..] == a[1..] + b;
      RunAppendCalls(Serve(t, a[0]).table, a[1..], b);
    } else {
      assert a + b == b;
    }
  }

  /** Over a whole session every write follows the read that guards it. */
  lemma {:induction false} RunGuarded(t: Table, reqs: seq<Request>)
    ensures Guarded(Run(t, reqs).calls)
    decreases |reqs|
  {
    if |reqs| > 0 {
      var s := Serve(t, reqs[0]);
      RunGuarded(s.table, reqs[1..]);
      GuardedAppend(s.calls, Run(s.table, reqs[1..]).calls);
    }
  }

  /** A session of reads only issues no write and leaves the table as it was. */
  lemma {:induction false} ReadOnlyRunKeepsTable(t: Table, reqs: seq<Request>)
    requires forall i :: 0 <= i < |reqs| ==> !reqs[i].Mutates()
    ensures Run(t, reqs).table == t
    ensures forall c :: c in Run(t, reqs).calls ==> !c.IsWrite()
    decreases |reqs|
  {
    if |reqs| > 0 {
      var s := Serve(t, reqs[0]);
      ReadOnlyRunKeepsTable(t, reqs[1..]);
      forall c | c in s.calls
        ensures !c.IsWrite()
      {
        var i :| 0 <= i < |s.calls| && s.calls[i] == c;
      }
    }
  }

  /** A session in which every request fails, and every insert fails at
      its duplicate check, leaves the table as it was. (An insert that
      fails for want of a generated key has already reached the store.) */
  lemma {:induction false} FailedRunKeepsTable(t: Table, reqs: seq<Request>)
    requires forall i :: 0 <= i < |reqs| ==> Run(t, reqs).errors[i].Some?
    requires forall i :: 0 <= i < |reqs| && reqs[i].InsertReq? ==> reqs[i].duplicate
    ensures Run(t, reqs).table == t
    decreases |reqs|
  {
    if |reqs| > 0 {
      var s := Serve(t, reqs[0]);
      var rest := Run(s.table, reqs[1..]);
      assert Run(t, reqs).errors == [s.error] + rest.errors;
      assert s.error.Some?;
      forall i | 0 <= i < |reqs[1..]|
        ensures rest.errors[i].Some?
      {
        assert rest.errors[i] == Run(t, reqs).errors[i + 1];
      }
      FailedRunKeepsTable(s.table, reqs[1..]);
    }
  }

  /** When the duplicate check fires on every insert of a session, no row
      insert reaches the data-access layer. */
  lemma {:induction false} DuplicateRunInsertsNothing(t: Table, reqs: seq<Request>)
    requires forall i :: 0 <= i < |reqs| && reqs[i].InsertReq? ==> reqs[i].duplicate
    ensures forall c :: c in Run(t, reqs).calls ==> !c.InsertRow?
    decreases |reqs|
  {
    if |reqs| > 0 {
      var s := Serve(t, reqs[0]);
      DuplicateRunInsertsNothing(s.table, reqs[1..]);
    }
  }
}
